=== FILE: README.md ===
# Gesture-gated file transfer: a Dafny model

This project models the core of a two-machine file-transfer tool in which a
hand gesture in front of a camera starts a send. Two pieces of its logic are
modelled:

* **Discovery and TCP file transfer** (`network_utils.py`). A receiver
  periodically broadcasts a `RECEIVER_BROADCAST` announcement over UDP, and the
  sender takes the first announcement it sees. The sender then opens a TCP
  connection and writes a 4-byte big-endian length, a JSON metadata object
  (`file_name`, `file_size`) and the file in 4096-byte chunks. The receiver
  reads the metadata and picks a free destination name (`stem_k.ext`). It then
  reads at most `file_size` bytes, stopping early if the stream ends.
* **Hold-to-trigger gesture detection** (`gesture_detector.py`). Per frame,
  each gesture keeps a hold start time and a "triggered" latch. There are two
  gestures: the pinch, which the sender's camera loop uses (sender.py:129),
  and the open pinch, whose frame handler is defined but is not called by
  either application. It fires once the gesture has been held
  for the hold time, and does not fire again until the hand leaves view or the
  state is reset.

Sockets become values. A TCP connection is a `Transport.Conn`: the bytes the
peer sent, plus a schedule of how many bytes each `recv` call is granted,
because TCP may hand over fewer bytes than were asked for. The UDP datagrams
received up to the first silence of `timeout` seconds are a sequence of
`Discovery.Datagram` values, each either a parsed message record or
malformed. The timeout is set per `recvfrom` call, not for the scan as a
whole. The receiver's directory is a
map from name to contents. The sender's side maps each existing path to a
`FileTransfer.Entry`: a readable file with its contents, or an entry that
`open` refuses (a directory, a file without read permission) with the size
`getsize` reports. JSON encoding and decoding of the metadata are
function parameters. The clock is an integer count of milliseconds, read once
per frame. Whether the hand makes the gesture on a frame is a boolean input,
because the distance threshold is a float test on landmark coordinates.

Modules: `Basics` (Option, bytes, chunk concatenation), `Config` (the
constants of `config.py`), `BigEndian` (`int.to_bytes` / `int.from_bytes`),
`Transport`, `Framing`, `FileNames` (`basename`, `splitext`, decimal
numbering, collision search), `Discovery`, `FileTransfer` and `Gesture`.

Three behaviours of the code are easy to miss and are modelled as written:

* The receiver accepts every connection. There is no accept or decline step
  and no second data connection.
* A stream that closes before `file_size` bytes arrive still leaves the file
  saved, and no failure is signalled. `FileTransfer.ReceiveOne` models it that
  way: the outcome is `Saved` and its contents are a strict prefix of what was
  announced.
* `MAX_FILE_SIZE` is defined in `config.py` but never read.

## Model

| member | source | states |
|---|---|---|
| `BigEndian.ToBytes` | network_utils.py:162 | `to_bytes(len, 'big')` succeeds exactly when the number is below 256^len (otherwise OverflowError), and yields exactly `len` bytes |
| `BigEndian.FromBytes` | network_utils.py:216 | `from_bytes` of any byte string, the empty one included, is below 256^length |
| `BigEndian.FromToBytes` | network_utils.py:216 | decoding the encoding of a number gives the number back |
| `BigEndian.ToFromBytes` | network_utils.py:216 | re-encoding a decoded byte string at its own width gives the same bytes: the 4-byte prefix is a bijection |
| `Transport.Recv` | network_utils.py:238-240 | `recv(n)` returns at most `n` of the pending bytes, in order, and consumes only those; it returns empty exactly when `n` is 0 or the peer has closed and everything was read |
| `Transport.ReadExact` | network_utils.py:216-219 | the metadata reads return `min(n, pending)` bytes, in order, leaving the rest pending |
| `Framing.Frame` | network_utils.py:162-163 | a payload is framable exactly when its length is below 2^32; the frame is 4 prefix bytes encoding that length, then the payload unchanged |
| `Framing.ReadFrame` | network_utils.py:216-219 | the receiver takes a prefix, then exactly the length it encodes or, if fewer bytes remain, all of them; everything it takes comes from the front of the stream in order |
| `Framing.FrameRoundTrip` | network_utils.py:216-219 | reading a frame gives back exactly the framed payload, and the bytes after the frame are left on the connection with its read schedule untouched |
| `FileNames.Basename` | network_utils.py:147 | the file name sent is the whole last component of the path: a suffix with no separator in it, which is either the whole path or preceded by a `/` |
| `FileNames.SplitExt` | network_utils.py:231 | stem and extension concatenate back to the name |
| `FileNames.SplitExtShape` | network_utils.py:231 | a non-empty extension is a dot followed by no dot or separator, and the stem has a non-dot character in the last component; with an empty extension every dot of the last component is preceded only by dots (`.bashrc` has no extension) |
| `FileNames.Decimal` | network_utils.py:232 | `f"{counter}"` is a non-empty string of decimal digits with no leading zero, `0` itself aside |
| `FileNames.NameAt` | network_utils.py:227-232 | the name tried at attempt `k`: the name as sent exactly at attempt 0, and at every later attempt `f"{name}_{counter}{ext}"`, which is longer than the name |
| `FileNames.DecimalRoundTrip` | network_utils.py:232 | the counter written with `f"{counter}"` reads back as the counter, so different counters give different spellings |
| `FileNames.NameAtInjective` | network_utils.py:229-233 | the search never tries the same name twice: `name`, `stem_1.ext`, `stem_2.ext`, … are pairwise distinct, the suffix always being built from the original name |
| `FileNames.FreeName` | network_utils.py:226-233 | the chosen name is free; it is the file name itself when that is free, and otherwise the first of `stem_1.ext`, `stem_2.ext`, … that is free; the loop ends for every finite directory |
| `FileNames.FirstFreeUnique` | network_utils.py:229-233 | the stopping attempt is unique, so the saved name depends only on the name and the directory |
| `FileNames.DirectoryNameExample` | network_utils.py:226-233 | a file announced as `""` (the base name of a path ending in `/`) is saved as `_1`, and one announced as `..` as `.._1` |
| `FileNames.ReportExample` | network_utils.py:226-233 | with `report.pdf` present a second copy is saved as `report_1.pdf`; with both present, a third as `report_2.pdf` |
| `Discovery.LocalIp` | network_utils.py:50-57 | the announced address is the one the probe connection reported, or `127.0.0.1` when the probe failed |
| `Discovery.Announcement` | network_utils.py:59-64 | the broadcast message has type `RECEIVER_BROADCAST`, the device name, the local address and the TCP transfer port 37021 |
| `Discovery.BroadcastLoop` | network_utils.py:66-72 | every datagram sent is that same announcement, one per successful tick, and the loop stops at the first failed send |
| `Discovery.Scan` | network_utils.py:102-123 | the scan ends at the first announcement (reporting its ip and port) or at the first malformed datagram, with everything before it skipped; it times out exactly when every datagram is a well-formed non-announcement |
| `Discovery.StopsAtScan` | network_utils.py:103-114 | the first datagram that is not skipped is exactly where the scan ends |
| `Discovery.DiscoverReceiver` | network_utils.py:102-123 | the result is `(ip, port)` from the first announcement when nothing malformed precedes it, and `(None, None)` when a malformed datagram comes first or a `timeout`-long silence comes before any announcement |
| `Discovery.ScanStopsAtFirst` | network_utils.py:103-114 | after any run of skipped datagrams, the next datagram decides the scan, whatever follows it |
| `Discovery.DiscoversAnnouncement` | network_utils.py:107-114 | the announcement the broadcaster builds is accepted by the sender, which then reports `(local_ip, 37021)`, whatever well-formed chatter precedes it |
| `FileTransfer.ReadChunks` | network_utils.py:168-176 | the chunks sent each hold 1 to 4096 bytes, all but the last exactly 4096, and concatenate to the file; `sent_bytes` ends equal to the file length; an empty file sends no chunk |
| `FileTransfer.SendFile` | network_utils.py:142-188 | a missing path fails before any connection; it connects exactly when the path exists and `connect` succeeds; it reports success exactly when it connected, the entry can be opened for reading and the metadata length fits the 4-byte prefix; once connected, an over-long metadata object sends nothing, and otherwise the framed metadata is sent followed by the file byte for byte, or by nothing when `open` fails (a directory, a file without read permission), which is reported as a failure |
| `FileTransfer.ReceiveBody` | network_utils.py:235-243 | `received_bytes` never exceeds `file_size`; each chunk holds 1 to 4096 bytes; with enough data exactly the first `file_size` bytes are written, in order, and nothing after them is consumed; if the stream ends early, everything that came is written, a strict prefix of the announced length; this holds for every segmentation the transport chooses |
| `FileTransfer.ReceiveOne` | network_utils.py:212-252 | an undecodable metadata payload drops the connection and leaves the directory unchanged; otherwise a new file is added under the first free version of the peer's name, without overwriting anything and never under `""`, `.` or `..`, which the existence test always finds taken because they name the save directory or its parent, holding the bytes after the frame up to the announced size, and reported saved even when short |
| `FileTransfer.ReceiveAll` | network_utils.py:209-259 | over any sequence of connections, every file already present keeps its contents; each connection saves at most one file, under a name that was not present before and that no other connection of the run uses; each saved file still holds what it received at the end of the run; and nothing else is added to the directory |
| `FileTransfer.Loopback` | network_utils.py:157-176 | what the sender writes is saved by the receiver under the first free version of the file's base name (never `""`, `.` or `..`), for any segmentation of the file data, given that the prefix and the metadata each arrive in a single `recv`; a readable file is saved byte for byte and reported sent, while an entry `open` refuses is reported failed by the sender yet saved by the receiver as an empty file |
| `Gesture.Step` | gesture_detector.py:207-241 | it fires exactly when the hand is present, the gesture is held, the hold has lasted the hold time and the latch is clear; firing sets the latch; the first held frame records the start and later held frames keep it; with a positive hold time the frame that starts a hold never fires; releasing with the hand in view clears the start and keeps the latch; a frame without a hand clears both |
| `Gesture.ProcessFrame` | gesture_detector.py:201-241 | the pinch pair is stepped and the open-pinch pair is left untouched |
| `Gesture.ProcessFrameOpenPinch` | gesture_detector.py:317-357 | the open-pinch pair is stepped by the same transition, and the pinch pair is left untouched |
| `Gesture.ResetGesture` | gesture_detector.py:426-429 | clears the pinch start time and latch, and nothing else |
| `Gesture.ResetOpenPinch` | gesture_detector.py:431-434 | clears the open-pinch start time and latch, and nothing else |
| `Gesture.FiringsBounded` | gesture_detector.py:218-241 | over any run of frames the gesture fires at most once per appearance of the hand: at most the number of hand-less frames, plus one if the latch was clear at the start |
| `Gesture.AtMostOnceWhileHandInView` | gesture_detector.py:218-232 | while the hand stays in view the gesture fires at most once, whether it is kept held or released and made again, and not at all once the latch is set |
| `Gesture.UnbrokenHold` | gesture_detector.py:210-221 | during an unbroken hold that has not fired, it fires exactly once if some frame comes at least the hold time after the start, and otherwise never |
| `Gesture.HoldFromIdle` | gesture_detector.py:210-221 | from a fresh or reset state, an unbroken hold fires exactly once if it lasts the hold time from its first frame, and otherwise never |
| `Gesture.ConfiguredHoldTime` | config.py:15 | at the configured 500 ms hold time, a pinch held from 0 ms to 499 ms does not fire, and one held to 500 ms fires once |

## Left out

- Sockets, threads, `time.sleep`, the broadcast thread's start/stop flag and its 3-second join (network_utils.py:22-36, 76-81) are left out. The broadcast loop is modelled as the sequence of its send outcomes.
- Socket set-up and teardown are left out: binding, `SO_REUSEADDR`/`SO_BROADCAST`, `listen(5)`, `accept`, `close` and `settimeout`. A silence of `timeout` seconds between datagrams becomes the end of the datagram sequence.
- `Transport.ReadExact`: the `recv(4)` and `recv(metadata_len)` calls are modelled as if each returned every requested byte the peer sent. TCP does not promise this, and the code does not loop on these calls, so a short read there would misframe the stream. That gap is not modelled. The data loop's `recv` is modelled with short reads.
- `Discovery.Scan`: the scan is modelled over a finite sequence of datagrams. In the code it never ends while well-formed non-announcements keep arriving at intervals shorter than `timeout`, because the timeout restarts with each `recvfrom`.
- `FileTransfer.Loopback`: only the file data may arrive in any segmentation. The 4-byte prefix and the metadata are assumed to arrive each in a single `recv` (see `Transport.ReadExact`).
- `Discovery.DiscoversAnnouncement`: the lemma assumes the encoded announcement fits in the 1024 bytes that `recvfrom(1024)` (network_utils.py:104) reads. A longer one would be truncated, fail to parse and end the scan with `(None, None)`. The datagram model has no size, so the lemma does not show this. The assumption holds for the device name `"File Receiver"` that receiver.py:17 uses.
- JSON and UTF-8 are left out. The metadata codec is a pair of function parameters, and a datagram is either a parsed record or malformed. A datagram over 1024 bytes, whose truncation would break parsing, counts as malformed. JSON values of the wrong type are not modelled: `ip` is a string or absent, `port` and `file_size` are integers or absent.
- `FileTransfer.SendFile`: a `sendall` that fails partway, and a file that changes between `getsize` and reading, are not modelled. An entry that cannot be opened is modelled as failing at `open` as a whole: a read error after some chunks were sent is not modelled. Every write is delivered whole to the model's connection.
- `FileTransfer.ReceiveOne`: failures of `open` or `write` on the destination are not modelled, and neither is `os.makedirs`. A non-integer `file_size` is not modelled either. In the code it fails after an empty file has been created.
- Path handling is left out. Names are strings with `/` as the only separator. `os.path.join(save_dir, name)` is treated as the name itself within the directory, except that `""`, `.` and `..` always count as taken (`FileNames.DirectoryNames`), because they join to the save directory or its parent. A peer-supplied absolute name, or one containing `../`, would escape the directory in the code, and the model does not show that.
- Floating-point progress percentages, progress bars and all printing are left out (network_utils.py:179-180, 246-247; gesture_detector.py:243-286, 359-422).
- MediaPipe, OpenCV frame conversion, landmark detection, drawing and the model download are left out (gesture_detector.py:58-96, 154-173). So are the float distance tests (gesture_detector.py:98-152), which become the per-frame "held now" input. `OPEN_PINCH_THRESHOLD` is imported but not defined in `config.py`.
- `time.time()` is left out. One integer reading per frame is used, whereas the code reads the clock twice on the frame that starts a hold, so its elapsed time there can be slightly above 0. The hold time is the `holdTime` parameter; `Config.GestureHoldTimeMs` is the configured 500 ms. The `is_pinching` field is never updated by the code and is not modelled.
- `sender.py` and `receiver.py` are left out: the file dialog, camera loop, keyboard handling, the local-IP display and process exit. They only orchestrate the modelled operations. The UDP port constant is used only for binding and sending, which are left out.
- `MAX_FILE_SIZE` is not modelled, because no code reads it.

=== FILE: basics.dfy ===
/** Small shared vocabulary: an optional value, bytes, and sequence helpers. */
module Basics {

  /** A value that may be missing, as Python code signals with `None`. */
  datatype Option<+T> = None | Some(value: T) {
    /** The value, or `fallback` when it is missing. */
    function ValueOr(fallback: T): T {
      if Some? then value else fallback
    }
  }

  /** One octet on the wire or on disk. */
  type Byte = b: int | 0 <= b < 256

  function Min(a: int, b: int): int { if a <= b then a else b }

  function Max(a: int, b: int): int { if a <= b then b else a }

  /** The concatenation of a sequence of chunks, in order. */
  function Concat<T>(chunks: seq<seq<T>>): seq<T>
  {
    if |chunks| == 0 then [] else Concat(chunks[..|chunks| - 1]) + chunks[|chunks| - 1]
  }

  /** Appending one chunk appends its contents to the concatenation. */
  lemma ConcatAppend<T>(chunks: seq<seq<T>>, c: seq<T>)
    ensures Concat(chunks + [c]) == Concat(chunks) + c
  {
  }

  /** Every chunk is non-empty and at most `bound` long. */
  predicate ChunksWithin<T>(chunks: seq<seq<T>>, bound: nat)
  {
    forall i :: 0 <= i < |chunks| ==> 1 <= |chunks[i]| <= bound
  }

  /** Appending a chunk within the bound keeps every chunk within it. */
  lemma ChunksWithinAppend<T>(chunks: seq<seq<T>>, c: seq<T>, bound: nat)
    requires ChunksWithin(chunks, bound) && 1 <= |c| <= bound
    ensures ChunksWithin(chunks + [c], bound)
  {
  }
}

=== FILE: bigendian.dfy ===
/** Unsigned big-endian integers of a fixed byte width, as Python's
    `int.to_bytes(len, 'big')` and `int.from_bytes(bs, 'big')` compute them. */
module BigEndian {
  import opened Basics

  /** 256 to the power `n`: the number of values `n` bytes can hold. */
  function Pow256(n: nat): (r: nat)
    ensures r >= 1
  {
    if n == 0 then 1 else 256 * Pow256(n - 1)
  }

  /** The value of a byte string read most significant byte first. Any length
      is accepted, the empty string reading as 0, as `int.from_bytes` does. */
  function FromBytes(bs: seq<Byte>): (r: nat)
    ensures r < Pow256(|bs|)
  {
    if |bs| == 0 then 0 else FromBytes(bs[..|bs| - 1]) * 256 + bs[|bs| - 1]
  }

  /** `n` written in exactly `len` bytes, most significant first; None where
      `int.to_bytes` raises OverflowError because `n` does not fit. */
  function ToBytes(n: nat, len: nat): (r: Option<seq<Byte>>)
    ensures r.Some? <==> n < Pow256(len)
    ensures r.Some? ==> |r.value| == len
  {
    if len == 0 then
      (if n == 0 then Some([]) else None)
    else
      match ToBytes(n / 256, len - 1)
      case None => None
      case Some(p) => Some(p + [n % 256])
  }

  /** Decoding an encoding gives back the encoded number. */
  lemma {:induction false} FromToBytes(n: nat, len: nat)
    requires ToBytes(n, len).Some?
    ensures FromBytes(ToBytes(n, len).value) == n
  {
    if len > 0 {
      FromToBytes(n / 256, len - 1);
      var p := ToBytes(n / 256, len - 1).value;
      var bs := p + [n % 256];
      assert bs[..|bs| - 1] == p;
    }
  }

  /** Encoding a decoded byte string at its own width gives back the bytes. */
  lemma {:induction false} ToFromBytes(bs: seq<Byte>)
    ensures ToBytes(FromBytes(bs), |bs|) == Some(bs)
  {
    if |bs| > 0 {
      var init := bs[..|bs| - 1];
      var n := FromBytes(bs);
      ToFromBytes(init);
      assert n / 256 == FromBytes(init);
      assert n % 256 == bs[|bs| - 1];
      assert init + [bs[|bs| - 1]] == bs;
    }
  }
}

=== FILE: config.dfy ===
/** The configuration constants the modelled code reads (config.py). */
module Config {

  /** TCP port on which the receiver accepts file transfers. */
  const TcpPort: int := 37021

  /** Chunk size for reading and sending file data, in bytes. */
  const BufferSize: nat := 4096

  /** How long a gesture must be held before it fires: 0.5 seconds, written
      in milliseconds because the model's clock is an integer millisecond count. */
  const GestureHoldTimeMs: int := 500
}

=== FILE: discovery.dfy ===
/** Receiver presence over UDP: the announcement the broadcaster sends and the
    scan the sender runs over incoming datagrams (network_utils.py,
    `DeviceDiscovery`). JSON is abstracted: a datagram either parses into a
    message record or does not. */
module Discovery {
  import opened Basics
  import Config

  /** The message type that marks a receiver's announcement. */
  const ReceiverBroadcast: string := "RECEIVER_BROADCAST"

  /** Address used when the local address cannot be determined. */
  const LoopbackIp: string := "127.0.0.1"

  /** A parsed JSON object, seen through the keys the code reads with `get`;
      a missing key reads as None. */
  datatype Message = Message(
    msgType: Option<string>,
    deviceName: Option<string>,
    ip: Option<string>,
    port: Option<int>)

  /** One received datagram: a JSON object, or something `json.loads` (or
      the `get` on its result) rejects. */
  datatype Datagram = Malformed | Parsed(msg: Message)

  /** How a scan over the datagrams received ends. */
  datatype ScanOutcome =
    | Found(index: nat, ip: Option<string>, port: Option<int>)
    | Aborted(index: nat)
    | TimedOut

  /** A datagram the scan passes over: well-formed but not an announcement. */
  predicate Skipped(d: Datagram)
  {
    d.Parsed? && d.msg.msgType != Some(ReceiverBroadcast)
  }

  /** The local address the announcement carries: the one the probe
      connection reported, or loopback when that probe failed. */
  function LocalIp(probe: Option<string>): (r: string)
    ensures probe.Some? ==> r == probe.value
    ensures probe.None? ==> r == LoopbackIp
  {
    probe.ValueOr(LoopbackIp)
  }

  /** The announcement built once by the broadcast loop and sent on every
      tick. */
  function Announcement(deviceName: string, probe: Option<string>): (m: Message)
    ensures m.msgType == Some(ReceiverBroadcast)
    ensures m.ip == Some(LocalIp(probe)) && m.port == Some(Config.TcpPort)
    ensures m.deviceName == Some(deviceName)
  {
    Message(Some(ReceiverBroadcast), Some(deviceName), Some(LocalIp(probe)), Some(Config.TcpPort))
  }

  /** The datagrams `_broadcast_loop` sends. Each element of `ticks` is one
      pass of the loop while the broadcasting flag is set (the loop's length
      is how long it stays set) and says whether `sendto` succeeded; the
      first failure ends the loop. */
  function BroadcastLoop(deviceName: string, probe: Option<string>, ticks: seq<bool>): (sent: seq<Message>)
    ensures |sent| <= |ticks|
    ensures forall i :: 0 <= i < |sent| ==> ticks[i] && sent[i] == Announcement(deviceName, probe)
    ensures |sent| < |ticks| ==> !ticks[|sent|]
  {
    if |ticks| == 0 || !ticks[0] then []
    else [Announcement(deviceName, probe)] + BroadcastLoop(deviceName, probe, ticks[1..])
  }

  /** The `while True` loop of `discover_receiver` over the datagrams
      received up to the first silence of `timeout` seconds (the timeout
      applies to each `recvfrom`, not to the scan as a whole): the first
      announcement ends it, other well-formed messages are skipped, a
      malformed datagram aborts it, and running out of datagrams is that
      silence. */
  function Scan(ds: seq<Datagram>): (r: ScanOutcome)
    ensures r.Found? ==>
      && r.index < |ds| && ds[r.index].Parsed?
      && ds[r.index].msg.msgType == Some(ReceiverBroadcast)
      && r.ip == ds[r.index].msg.ip && r.port == ds[r.index].msg.port
    ensures r.Aborted? ==> r.index < |ds| && ds[r.index].Malformed?
    ensures r.Found? || r.Aborted? ==> forall j :: 0 <= j < r.index ==> Skipped(ds[j])
    ensures r.TimedOut? <==> forall j :: 0 <= j < |ds| ==> Skipped(ds[j])
  {
    if |ds| == 0 then TimedOut
    else match ds[0]
      case Malformed => Aborted(0)
      case Parsed(m) =>
        if m.msgType == Some(ReceiverBroadcast) then Found(0, m.ip, m.port)
        else match Scan(ds[1..])
          case Found(i, ip, port) => Found(i + 1, ip, port)
          case Aborted(i) => Aborted(i + 1)
          case TimedOut => TimedOut
  }

  /** Datagram `i` is where a scan stops: the first one not skipped. */
  predicate StopsAt(ds: seq<Datagram>, i: int)
  {
    0 <= i < |ds| && !Skipped(ds[i]) && forall j :: 0 <= j < i ==> Skipped(ds[j])
  }

  /** A scan stops in at most one place, and it is where `Scan` says. */
  lemma StopsAtScan(ds: seq<Datagram>, i: int)
    requires StopsAt(ds, i)
    ensures Scan(ds).Found? || Scan(ds).Aborted?
    ensures Scan(ds).index == i
  {
  }

  /** `discover_receiver`'s return value: `(ip, port)` as the first
      announcement carried them, and `(None, None)` on abort or timeout. */
  function DiscoverReceiver(ds: seq<Datagram>): (r: (Option<string>, Option<int>))
    // A malformed datagram ahead of every announcement ends the search empty-handed.
    ensures forall i :: StopsAt(ds, i) && ds[i].Malformed? ==> r == (None, None)
    // The first announcement, when nothing malformed precedes it, supplies the address.
    ensures forall i :: StopsAt(ds, i) && ds[i].Parsed? ==> r == (ds[i].msg.ip, ds[i].msg.port)
    // A silence before any announcement also ends it empty-handed.
    ensures (forall j :: 0 <= j < |ds| ==> Skipped(ds[j])) ==> r == (None, None)
  {
    forall i | StopsAt(ds, i) {
      StopsAtScan(ds, i);
    }
    match Scan(ds)
    case Found(_, ip, port) => (ip, port)
    case _ => (None, None)
  }

  /** The scan stops at the first datagram that is not skipped, whatever
      follows it. */
  lemma ScanStopsAtFirst(skipped: seq<Datagram>, d: Datagram, rest: seq<Datagram>)
    requires forall j :: 0 <= j < |skipped| ==> Skipped(skipped[j])
    requires !Skipped(d)
    ensures var r := Scan(skipped + [d] + rest);
      && (d.Malformed? ==> r == Aborted(|skipped|))
      && (d.Parsed? ==> r == Found(|skipped|, d.msg.ip, d.msg.port))
  {
    var ds := skipped + [d] + rest;
    assert ds[|skipped|] == d;
    assert forall j :: 0 <= j < |skipped| ==> ds[j] == skipped[j];
  }

  /** Whatever well-formed chatter precedes it, the announcement a broadcaster
      sends is found by the sender, which then connects to the announcer's
      address on the transfer port. */
  lemma DiscoversAnnouncement(noise: seq<Datagram>, deviceName: string, probe: Option<string>, rest: seq<Datagram>)
    requires forall j :: 0 <= j < |noise| ==> Skipped(noise[j])
    ensures DiscoverReceiver(noise + [Parsed(Announcement(deviceName, probe))] + rest)
      == (Some(LocalIp(probe)), Some(Config.TcpPort))
  {
    ScanStopsAtFirst(noise, Parsed(Announcement(deviceName, probe)), rest);
  }
}

=== FILE: filenames.dfy ===
/** File-name handling on the receiving side: `os.path.basename`,
    `os.path.splitext`, and the search for a free destination name
    (network_utils.py, `send_file` and `receive_file`). Names are POSIX
    paths: `/` is the only separator. */
module FileNames {
  import opened Basics

  /** The index of the last `c` in `s`, or -1 when there is none. */
  function LastIndex(s: string, c: char): (i: int)
    ensures -1 <= i < |s|
    ensures i >= 0 ==> s[i] == c
    ensures forall j :: i < j < |s| ==> s[j] != c
  {
    if |s| == 0 then -1
    else if s[|s| - 1] == c then |s| - 1
    else LastIndex(s[..|s| - 1], c)
  }

  /** `os.path.basename`: everything after the last separator. */
  function Basename(path: string): (r: string)
    ensures '/' !in r
    ensures |r| <= |path| && path[|path| - |r|..] == r
    // The whole last component: it starts the path or follows a separator.
    ensures |r| == |path| || path[|path| - |r| - 1] == '/'
  {
    path[LastIndex(path, '/') + 1..]
  }

  /** Some character strictly between positions `lo` and `hi` is not a dot. */
  predicate HasNonDot(s: string, lo: int, hi: int)
    requires -1 <= lo && hi <= |s|
  {
    exists j :: lo < j < hi && s[j] != '.'
  }

  /** `os.path.splitext`: the extension runs from the last dot of the final
      path component to the end, except that dots leading the component do
      not start an extension (`.bashrc` has none). */
  function SplitExt(path: string): (r: (string, string))
    ensures r.0 + r.1 == path
  {
    var sep := LastIndex(path, '/');
    var dot := LastIndex(path, '.');
    if dot > sep && HasNonDot(path, sep, dot) then
      (path[..dot], path[dot..])
    else
      (path, [])
  }

  /** What `splitext` promises: a non-empty extension is a dot followed by
      neither dots nor separators, and its stem has something other than dots
      in the final component; an empty extension means no dot of the final
      component is preceded there by anything but dots. */
  lemma SplitExtShape(path: string)
    ensures var (stem, ext) := SplitExt(path);
      && (ext != [] ==> ext[0] == '.' && '.' !in ext[1..] && '/' !in ext)
      && (ext != [] ==> HasNonDot(stem, LastIndex(path, '/'), |stem|))
      && (ext == [] ==> forall j :: LastIndex(path, '/') < j < |path| && path[j] == '.' ==> !HasNonDot(path, LastIndex(path, '/'), j))
  {
  }

  /** The decimal digit for `d`. */
  function Digit(d: nat): char
    requires d < 10
  {
    "0123456789"[d]
  }

  /** The numeric value of a decimal digit character. */
  function DigitValue(c: char): nat
  {
    if '0' <= c <= '9' then (c as int) - ('0' as int) else 0
  }

  /** Python's `f"{n}"` for a natural number: its decimal digits, no sign, no
      leading zeros. */
  function Decimal(n: nat): (r: string)
    ensures |r| >= 1
    ensures forall i :: 0 <= i < |r| ==> '0' <= r[i] <= '9'
    ensures r[0] == '0' ==> n == 0
  {
    if n < 10 then [Digit(n)] else Decimal(n / 10) + [Digit(n % 10)]
  }

  /** Reading a string of decimal digits back as a number. */
  function ParseDecimal(s: string): nat
  {
    if |s| == 0 then 0 else ParseDecimal(s[..|s| - 1]) * 10 + DigitValue(s[|s| - 1])
  }

  /** Decimal writing is undone by decimal reading. */
  lemma {:induction false} DecimalRoundTrip(n: nat)
    ensures ParseDecimal(Decimal(n)) == n
  {
    var s := Decimal(n);
    DigitRoundTrip(n % 10);
    if n < 10 {
      assert s == [Digit(n)];
      assert s[..0] == [];
    } else {
      DecimalRoundTrip(n / 10);
      assert s == Decimal(n / 10) + [Digit(n % 10)];
      assert s[..|s| - 1] == Decimal(n / 10);
      assert ParseDecimal(s) == ParseDecimal(Decimal(n / 10)) * 10 + DigitValue(Digit(n % 10));
    }
  }

  /** Reading a digit back gives its value. */
  lemma DigitRoundTrip(d: nat)
    requires d < 10
    ensures DigitValue(Digit(d)) == d
  {
  }

  /** Different numbers have different decimal spellings. */
  lemma DecimalInjective(a: nat, b: nat)
    requires Decimal(a) == Decimal(b)
    ensures a == b
  {
    DecimalRoundTrip(a);
    DecimalRoundTrip(b);
  }

  /** The `k`-th name tried for `name`: the name itself for k = 0, and
      `stem_k.ext` after that, always built from the original name. */
  function NameAt(name: string, k: nat): (r: string)
    // Only the first attempt is the name as sent; every later one is longer.
    ensures k == 0 <==> r == name
    ensures k > 0 ==> |r| > |name|
  {
    if k == 0 then name
    else
      var (stem, ext) := SplitExt(name);
      stem + "_" + Decimal(k) + ext
  }

  /** No two attempts of the search try the same name. */
  lemma NameAtInjective(name: string, j: nat, k: nat)
    requires NameAt(name, j) == NameAt(name, k)
    ensures j == k
  {
    var (stem, ext) := SplitExt(name);
    if j != 0 && k != 0 {
      var a := NameAt(name, j);
      var b := NameAt(name, k);
      assert |Decimal(j)| == |Decimal(k)|;
      var lo := |stem| + 1;
      assert a[lo..lo + |Decimal(j)|] == Decimal(j);
      assert b[lo..lo + |Decimal(k)|] == Decimal(k);
      DecimalInjective(j, k);
    }
  }

  /** `k` is where the search stops: every earlier attempt is taken and the
      `k`-th is free. */
  ghost predicate FirstFreeAt(name: string, existing: set<string>, k: nat)
  {
    && NameAt(name, k) !in existing
    && forall j :: 0 <= j < k ==> NameAt(name, j) in existing
  }

  /** The names that `os.path.join(save_dir, name)` turns into the save
      directory itself (`""`, `"."`) or its parent (`".."`). `os.path.exists`
      always finds those, so the search never settles on them. */
  const DirectoryNames: set<string> := {"", ".", ".."}

  /** The attempts before the `m`-th. */
  ghost function Tried(name: string, m: nat): set<string>
  {
    set j | 0 <= j < m :: NameAt(name, j)
  }

  /** A failed attempt uses up an entry of the directory that no earlier
      attempt used: the measure the search loop decreases by. */
  lemma TriedShrinks(name: string, existing: set<string>, m: nat)
    requires NameAt(name, m) in existing
    ensures existing - Tried(name, m + 1) < existing - Tried(name, m)
  {
    forall j | 0 <= j < m
      ensures NameAt(name, j) != NameAt(name, m)
    {
      if NameAt(name, j) == NameAt(name, m) {
        NameAtInjective(name, j, m);
      }
    }
    assert Tried(name, m + 1) == Tried(name, m) + {NameAt(name, m)};
    assert NameAt(name, m) in existing - Tried(name, m);
  }

  /** The duplicate-name loop of `receive_file`: the first of `name`,
      `stem_1.ext`, `stem_2.ext`, ... not in `existing`. Returns the name and
      the attempt number it was found at. The loop ends for every finite
      directory because each attempt that fails uses up a distinct entry. */
  method FreeName(name: string, existing: set<string>) returns (path: string, k: nat)
    ensures path == NameAt(name, k)
    ensures FirstFreeAt(name, existing, k)
    ensures name !in existing ==> path == name && k == 0
    ensures name in existing ==> k >= 1
  {
    path := name;
    var counter: nat := 1;
    while path in existing
      invariant counter >= 1
      invariant path == NameAt(name, counter - 1)
      invariant forall j :: 0 <= j < counter - 1 ==> NameAt(name, j) in existing
      decreases existing - Tried(name, counter - 1)
    {
      TriedShrinks(name, existing, counter - 1);
      assert Tried(name, counter) == Tried(name, counter - 1) + {path};
      path := NameAt(name, counter);
      counter := counter + 1;
    }
    k := counter - 1;
  }

  /** The stopping point is unique, so the chosen name is determined by the
      name and the directory alone. */
  lemma FirstFreeUnique(name: string, existing: set<string>, k1: nat, k2: nat)
    requires FirstFreeAt(name, existing, k1)
    requires FirstFreeAt(name, existing, k2)
    ensures k1 == k2
  {
  }

  /** `report.pdf` splits at its only dot. */
  lemma SplitReport()
    ensures SplitExt("report.pdf") == ("report", ".pdf")
  {
    var p := "report.pdf";
    assert LastIndex(p, '/') == -1;
    assert p[..6] + p[6..] == p;
    assert LastIndex(p, '.') == 6 by {
      assert p[..7][6] == '.';
      assert LastIndex(p[..7], '.') == 6;
      assert p[..8][..7] == p[..7];
      assert LastIndex(p[..8], '.') == 6;
      assert p[..9][..8] == p[..8];
      assert LastIndex(p[..9], '.') == 6;
    }
    assert HasNonDot(p, -1, 6) by {
      assert p[0] != '.';
    }
    assert p[..6] == "report" && p[6..] == ".pdf";
  }

  /** A second `report.pdf` is saved as `report_1.pdf`, a third as
      `report_2.pdf`. */
  lemma ReportExample(k1: nat, k2: nat)
    requires FirstFreeAt("report.pdf", {"report.pdf"}, k1)
    requires FirstFreeAt("report.pdf", {"report.pdf", "report_1.pdf"}, k2)
    ensures NameAt("report.pdf", k1) == "report_1.pdf"
    ensures NameAt("report.pdf", k2) == "report_2.pdf"
  {
    SplitReport();
    assert Decimal(1) == "1" && Decimal(2) == "2";
    assert NameAt("report.pdf", 1) == "report_1.pdf";
    assert NameAt("report.pdf", 2) == "report_2.pdf";
    assert FirstFreeAt("report.pdf", {"report.pdf"}, 1);
    FirstFreeUnique("report.pdf", {"report.pdf"}, k1, 1);
    assert FirstFreeAt("report.pdf", {"report.pdf", "report_1.pdf"}, 2);
    FirstFreeUnique("report.pdf", {"report.pdf", "report_1.pdf"}, k2, 2);
  }

  /** A file announced as `""` is saved as `_1`, and one announced as `..` as
      `.._1`: the search skips the directory names, and neither has an
      extension to keep. */
  lemma DirectoryNameExample(k1: nat, k2: nat)
    requires FirstFreeAt("", DirectoryNames, k1)
    requires FirstFreeAt("..", DirectoryNames, k2)
    ensures NameAt("", k1) == "_1"
    ensures NameAt("..", k2) == ".._1"
  {
    assert Decimal(1) == "1";
    assert SplitExt("") == ("", "");
    assert LastIndex("..", '/') == -1 && LastIndex("..", '.') == 1;
    assert !HasNonDot("..", -1, 1);
    assert SplitExt("..") == ("..", "");
    assert NameAt("", 1) == "_1";
    assert NameAt("..", 1) == ".._1";
    assert FirstFreeAt("", DirectoryNames, 1);
    FirstFreeUnique("", DirectoryNames, k1, 1);
    assert FirstFreeAt("..", DirectoryNames, 1);
    FirstFreeUnique("..", DirectoryNames, k2, 1);
  }
}

=== FILE: filetransfer.dfy ===
/** TCP file transfer (network_utils.py, `FileTransfer`): the sender's framed
    metadata and chunked data, and the receiver's handling of one connection.
    The sender sees each existing path as an `Entry`; the receiver's directory
    is a map from name to contents; the metadata's JSON codec
    is passed in as a pair of functions. */
module FileTransfer {
  import opened Basics
  import opened Transport
  import opened Framing
  import opened FileNames
  import Config

  /** What the sender finds at an existing path: a file `open(path, 'rb')`
      can read, with its contents, or an entry it cannot open for reading
      (a directory, a file without read permission), with the size
      `os.path.getsize` reports for it. */
  datatype Entry = Readable(contents: seq<Byte>) | Unreadable(size: nat)
  {
    /** The `file_size` the sender announces. */
    function Size(): nat
    {
      if Readable? then |contents| else size
    }

    /** The file data the sender gets onto the connection: all of it, or
        nothing when `open` fails. */
    function Sent(): seq<Byte>
    {
      if Readable? then contents else []
    }
  }

  /** The metadata object sent ahead of the file data. The receiver takes
      `fileSize` from the peer as it comes, so it may be any integer. */
  datatype FileMetadata = FileMetadata(fileName: string, fileSize: int)

  /** What handling one inbound connection leads to: a file written under
      `name` with `contents`, or the connection dropped by the handler's
      `except` before any file was opened. */
  datatype ReceiveOutcome = Saved(name: string, contents: seq<Byte>) | Dropped

  /** The sender's read loop: `f.read(BUFFER_SIZE)` until it returns nothing.
      Returns the chunks sent and the final `sent_bytes`. */
  method ReadChunks(contents: seq<Byte>) returns (chunks: seq<seq<Byte>>, sentBytes: nat)
    ensures ChunksWithin(chunks, Config.BufferSize)
    ensures forall i :: 0 <= i < |chunks| - 1 ==> |chunks[i]| == Config.BufferSize
    ensures Concat(chunks) == contents
    ensures sentBytes == |contents|
    ensures |chunks| == 0 <==> |contents| == 0
  {
    chunks := [];
    sentBytes := 0;
    while true
      invariant sentBytes <= |contents|
      invariant Concat(chunks) == contents[..sentBytes]
      invariant ChunksWithin(chunks, Config.BufferSize)
      invariant forall i :: 0 <= i < |chunks| - 1 ==> |chunks[i]| == Config.BufferSize
      invariant |chunks| > 0 && |chunks[|chunks| - 1]| < Config.BufferSize ==> sentBytes == |contents|
      invariant |chunks| == 0 <==> sentBytes == 0
      decreases |contents| - sentBytes
    {
      // A read on a regular file returns min(BUFFER_SIZE, what is left).
      var chunk := contents[sentBytes..sentBytes + Min(Config.BufferSize, |contents| - sentBytes)];
      if |chunk| == 0 {
        break;
      }
      ConcatAppend(chunks, chunk);
      ChunksWithinAppend(chunks, chunk, Config.BufferSize);
      assert contents[..sentBytes + |chunk|] == contents[..sentBytes] + chunk;
      chunks := chunks + [chunk];
      sentBytes := sentBytes + |chunk|;
    }
    assert contents[..sentBytes] == contents;
  }

  /** `send_file`. `connects` says whether `connect` succeeds. Returns
      whether it reports success, whether it connected, and every byte it put
      on the connection. */
  method SendFile(files: map<string, Entry>, path: string, connects: bool, encode: FileMetadata -> seq<Byte>)
    returns (ok: bool, connected: bool, wire: seq<Byte>)
    // A missing file fails before any connection is opened.
    ensures path !in files ==> !ok && !connected && wire == []
    ensures connected <==> path in files && connects
    ensures ok <==> path in files && connects && files[path].Readable?
                    && |encode(FileMetadata(Basename(path), files[path].Size()))| < 0x1_0000_0000
    ensures !connected ==> wire == []
    // Once connected, a metadata object too long for the prefix sends nothing;
    // otherwise the framed metadata goes out, followed by the file byte for
    // byte, or by nothing when the entry cannot be opened.
    ensures path in files && connects ==>
      var frame := Frame(encode(FileMetadata(Basename(path), files[path].Size())));
      wire == if frame.Some? then frame.value + files[path].Sent() else []
  {
    if path !in files {
      return false, false, [];
    }
    var entry := files[path];
    var metadata := encode(FileMetadata(Basename(path), entry.Size()));
    if !connects {
      return false, false, [];
    }
    var frame := Frame(metadata);
    if frame.None? {
      // `to_bytes(4, 'big')` raised; nothing was sent.
      return false, true, [];
    }
    if entry.Unreadable? {
      // `open(file_path, 'rb')` raised after the frame went out.
      return false, true, frame.value;
    }
    var chunks, sentBytes := ReadChunks(entry.contents);
    return true, true, frame.value + Concat(chunks);
  }

  /** The receiver's data loop: while fewer than `fileSize` bytes have
      arrived, `recv(min(BUFFER_SIZE, file_size - received_bytes))`, stopping
      early on an empty read. Returns the chunks written, their concatenation,
      `received_bytes` and the connection afterwards. */
  method ReceiveBody(c: Conn, fileSize: int)
    returns (chunks: seq<seq<Byte>>, written: seq<Byte>, receivedBytes: nat, rest: Conn)
    ensures ChunksWithin(chunks, Config.BufferSize)
    ensures Concat(chunks) == written && receivedBytes == |written|
    ensures receivedBytes <= Max(fileSize, 0)
    ensures written + rest.pending == c.pending
    // Enough data: exactly the first fileSize bytes, nothing after them consumed.
    ensures 0 <= fileSize <= |c.pending| ==> written == c.pending[..fileSize] && rest.pending == c.pending[fileSize..]
    // Stream ends early: everything that came, a strict prefix of what was announced.
    ensures |c.pending| < fileSize ==> written == c.pending && Drained(rest)
  {
    chunks := [];
    written := [];
    receivedBytes := 0;
    rest := c;
    while receivedBytes < fileSize
      invariant receivedBytes <= Max(fileSize, 0) && receivedBytes <= |c.pending|
      invariant written == c.pending[..receivedBytes] && rest.pending == c.pending[receivedBytes..]
      invariant Concat(chunks) == written && receivedBytes == |written|
      invariant ChunksWithin(chunks, Config.BufferSize)
      decreases fileSize - receivedBytes
    {
      var got := Recv(rest, Min(Config.BufferSize, fileSize - receivedBytes));
      var chunk := got.0;
      if |chunk| == 0 {
        break;
      }
      ConcatAppend(chunks, chunk);
      ChunksWithinAppend(chunks, chunk, Config.BufferSize);
      TakeMore(c.pending, receivedBytes, chunk, got.1.pending);
      chunks := chunks + [chunk];
      written := written + chunk;
      receivedBytes := receivedBytes + |chunk|;
      rest := got.1;
    }
    SplitAt(c.pending, receivedBytes);
  }

  /** A sequence is its first `n` elements followed by the rest. */
  lemma SplitAt(s: seq<Byte>, n: nat)
    requires n <= |s|
    ensures s[..n] + s[n..] == s
  {
  }

  /** Reading `chunk` off the front of what is left after the first `n`
      bytes extends the part read by `chunk`. */
  lemma TakeMore(s: seq<Byte>, n: nat, chunk: seq<Byte>, after: seq<Byte>)
    requires n <= |s| && chunk + after == s[n..]
    ensures n + |chunk| <= |s|
    ensures s[..n + |chunk|] == s[..n] + chunk && s[n + |chunk|..] == after
  {
  }

  /** One pass of `receive_file`'s accept loop over an accepted connection:
      read the framed metadata, pick a free name in `dir`, then read the data
      into it. Returns the outcome and the directory afterwards. */
  method ReceiveOne(c: Conn, dir: map<string, seq<Byte>>, decode: seq<Byte> -> Option<FileMetadata>)
    returns (outcome: ReceiveOutcome, dir': map<string, seq<Byte>>)
    ensures outcome.Dropped? <==> decode(ReadFrame(c).0).None?
    ensures outcome.Dropped? ==> dir' == dir
    ensures outcome.Saved? ==> outcome.name !in dir && dir' == dir[outcome.name := outcome.contents]
    // The search treats the directory names as taken, as `os.path.exists` does.
    ensures outcome.Saved? ==> outcome.name !in DirectoryNames
    ensures outcome.Saved? ==> exists k ::
      && FirstFreeAt(decode(ReadFrame(c).0).value.fileName, dir.Keys + DirectoryNames, k)
      && outcome.name == NameAt(decode(ReadFrame(c).0).value.fileName, k)
    // The file holds the bytes after the frame, up to the announced size;
    // a short stream still counts as saved.
    ensures outcome.Saved? ==> var after := ReadFrame(c).1.pending;
      var size := decode(ReadFrame(c).0).value.fileSize;
      outcome.contents == after[..Min(Max(size, 0), |after|)]
  {
    var (payload, c1) := ReadFrame(c);
    var metadata := decode(payload);
    if metadata.None? {
      return Dropped, dir;
    }
    var name, k := FreeName(metadata.value.fileName, dir.Keys + DirectoryNames);
    var chunks, written, receivedBytes, rest := ReceiveBody(c1, metadata.value.fileSize);
    outcome := Saved(name, written);
    dir' := dir[name := written];
  }

  /** Name `name` was saved by one of the `outcomes`. */
  predicate SavedBy(outcomes: seq<ReceiveOutcome>, name: string)
  {
    exists i :: 0 <= i < |outcomes| && outcomes[i].Saved? && outcomes[i].name == name
  }

  /** `after` is `before` plus exactly the files the `outcomes` saved: earlier
      files untouched, each saved file new, under its own name, holding what
      was received, and nothing else added. */
  ghost predicate Accounted(before: map<string, seq<Byte>>, outcomes: seq<ReceiveOutcome>, after: map<string, seq<Byte>>)
  {
    && (forall name :: name in before ==> name in after && after[name] == before[name])
    && (forall i :: 0 <= i < |outcomes| && outcomes[i].Saved? ==>
          outcomes[i].name !in before && outcomes[i].name in after && after[outcomes[i].name] == outcomes[i].contents)
    && (forall i, j :: 0 <= i < j < |outcomes| && outcomes[i].Saved? && outcomes[j].Saved? ==> outcomes[i].name != outcomes[j].name)
    && (forall name :: name in after ==> name in before || SavedBy(outcomes, name))
  }

  /** One more connection handled by `ReceiveOne` keeps the account. */
  lemma AccountedStep(before: map<string, seq<Byte>>, outcomes: seq<ReceiveOutcome>, after: map<string, seq<Byte>>,
                      outcome: ReceiveOutcome, next: map<string, seq<Byte>>)
    requires Accounted(before, outcomes, after)
    requires outcome.Dropped? ==> next == after
    requires outcome.Saved? ==> outcome.name !in after && next == after[outcome.name := outcome.contents]
    ensures Accounted(before, outcomes + [outcome], next)
  {
    var all := outcomes + [outcome];
    forall name | name in next
      ensures name in before || SavedBy(all, name)
    {
      if name in after && name !in before {
        var i :| 0 <= i < |outcomes| && outcomes[i].Saved? && outcomes[i].name == name;
        assert all[i] == outcomes[i];
      } else if name !in after {
        assert all[|outcomes|] == outcome;
      }
    }
  }

  /** `receive_file`'s accept loop over a sequence of connections: every
      file already in the directory keeps its contents, each connection adds
      at most one new file, under a name no other connection used, and that
      file keeps what it received for the rest of the run. */
  method ReceiveAll(conns: seq<Conn>, dir: map<string, seq<Byte>>, decode: seq<Byte> -> Option<FileMetadata>)
    returns (outcomes: seq<ReceiveOutcome>, dir': map<string, seq<Byte>>)
    ensures |outcomes| == |conns|
    ensures forall name :: name in dir ==> name in dir' && dir'[name] == dir[name]
    ensures forall i :: 0 <= i < |outcomes| && outcomes[i].Saved? ==> outcomes[i].name in dir' && outcomes[i].name !in dir
    // A file saved in the run keeps what it received: later connections choose other names.
    ensures forall i :: 0 <= i < |outcomes| && outcomes[i].Saved? ==> dir'[outcomes[i].name] == outcomes[i].contents
    ensures forall i, j :: 0 <= i < j < |outcomes| && outcomes[i].Saved? && outcomes[j].Saved? ==> outcomes[i].name != outcomes[j].name
    // Nothing appears in the directory except what was there and what was saved.
    ensures forall name :: name in dir' ==> name in dir || SavedBy(outcomes, name)
    ensures |dir'.Keys| <= |dir.Keys| + |conns|
  {
    outcomes := [];
    dir' := dir;
    var i := 0;
    while i < |conns|
      invariant i <= |conns| && |outcomes| == i
      invariant Accounted(dir, outcomes, dir')
      invariant |dir'.Keys| <= |dir.Keys| + i
    {
      var outcome, next := ReceiveOne(conns[i], dir', decode);
      if outcome.Saved? {
        assert next.Keys == dir'.Keys + {outcome.name};
      }
      AccountedStep(dir, outcomes, dir', outcome, next);
      outcomes := outcomes + [outcome];
      dir' := next;
      i := i + 1;
    }
  }

  /** A transfer end to end: what `send_file` writes, read by the receiver
      with the file data split into `recv` results in any way (the prefix
      and the metadata each arriving whole), is saved under the first free
      version of the file's name. A readable file is saved byte for byte and
      reported sent; an entry `open` refuses is reported failed by the sender
      while the receiver still saves an empty file. The codec need only read
      back the one metadata object sent. */
  method Loopback(files: map<string, Entry>, path: string, dir: map<string, seq<Byte>>, grants: seq<nat>,
                  encode: FileMetadata -> seq<Byte>, decode: seq<Byte> -> Option<FileMetadata>)
    returns (ok: bool, outcome: ReceiveOutcome)
    requires path in files
    requires decode(encode(FileMetadata(Basename(path), files[path].Size()))) == Some(FileMetadata(Basename(path), files[path].Size()))
    requires |encode(FileMetadata(Basename(path), files[path].Size()))| < 0x1_0000_0000
    ensures ok <==> files[path].Readable?
    ensures outcome.Saved?
    ensures files[path].Readable? ==> outcome.contents == files[path].contents
    ensures files[path].Unreadable? ==> outcome.contents == []
    ensures outcome.name !in dir && outcome.name !in DirectoryNames
    ensures exists k :: FirstFreeAt(Basename(path), dir.Keys + DirectoryNames, k) && outcome.name == NameAt(Basename(path), k)
  {
    var connected, wire;
    ok, connected, wire := SendFile(files, path, true, encode);
    var metadata := encode(FileMetadata(Basename(path), files[path].Size()));
    FrameRoundTrip(metadata, files[path].Sent(), grants);
    var dir';
    outcome, dir' := ReceiveOne(Conn(wire, grants), dir, decode);
  }
}

=== FILE: framing.dfy ===
/** The frame every transfer starts with: a 4-byte big-endian length, then a
    payload of exactly that many bytes (network_utils.py, `send_file` and
    `receive_file`). */
module Framing {
  import opened Basics
  import opened BigEndian
  import opened Transport

  /** Width of the length prefix in bytes. */
  const PrefixLength: nat := 4

  /** The bytes `sendall` puts on the stream for `payload`; None where
      `len(payload).to_bytes(4, 'big')` overflows. */
  function Frame(payload: seq<Byte>): (r: Option<seq<Byte>>)
    ensures r.Some? <==> |payload| < 0x1_0000_0000
    ensures r.Some? ==> |r.value| == PrefixLength + |payload|
    ensures r.Some? ==> r.value[PrefixLength..] == payload
    ensures r.Some? ==> FromBytes(r.value[..PrefixLength]) == |payload|
  {
    assert Pow256(PrefixLength) == 0x1_0000_0000;
    match ToBytes(|payload|, PrefixLength)
    case None => None
    case Some(prefix) =>
      FromToBytes(|payload|, PrefixLength);
      assert (prefix + payload)[..PrefixLength] == prefix;
      Some(prefix + payload)
  }

  /** What the receiver reads: `recv(4)`, decoded with `int.from_bytes`, then
      `recv(metadata_len)`. Returns the payload and the connection after it. */
  function ReadFrame(c: Conn): (r: (seq<Byte>, Conn))
    ensures |r.0| == Min(FromBytes(ReadExact(c, PrefixLength).0), |c.pending| - |ReadExact(c, PrefixLength).0|)
    ensures ReadExact(c, PrefixLength).0 + r.0 + r.1.pending == c.pending
    ensures r.1.grants == c.grants
  {
    var (prefix, c1) := ReadExact(c, PrefixLength);
    ReadExact(c1, FromBytes(prefix))
  }

  /** The receiver reads back exactly the payload that was framed, and the
      bytes after the frame are left on the connection untouched. */
  lemma FrameRoundTrip(payload: seq<Byte>, body: seq<Byte>, grants: seq<nat>)
    requires Frame(payload).Some?
    ensures ReadFrame(Conn(Frame(payload).value + body, grants)) == (payload, Conn(body, grants))
  {
    var w := Frame(payload).value;
    var s := w + body;
    assert s[..PrefixLength] == w[..PrefixLength];
    assert s[PrefixLength..] == payload + body;
    assert (payload + body)[..|payload|] == payload;
    assert (payload + body)[|payload|..] == body;
  }
}

=== FILE: gesture.dfy ===
/** The hold-to-trigger logic of the gesture detector (gesture_detector.py,
    `process_frame`, `process_frame_open_pinch`, `reset_gesture`,
    `reset_open_pinch`). Hand tracking and drawing are abstracted to one
    observation per frame: whether a hand is present, whether the gesture
    is being made, and the clock reading in milliseconds. */
module Gesture {
  import opened Basics
  import Config

  /** The state one gesture keeps between frames: when the current hold
      began, and whether this hold (or an earlier one with the hand still in
      view) already fired. */
  datatype Hold = Hold(startTime: Option<int>, triggered: bool)

  /** What one camera frame tells the detector. */
  datatype Observation = Observation(handPresent: bool, heldNow: bool, now: int)

  /** Both gestures' state: the pinch, which the sender's camera loop
      watches for, and the open pinch, whose frame handler is defined
      alongside but has no caller in the application. */
  datatype Detector = Detector(pinch: Hold, openPinch: Hold)

  /** The state before any frame: no hold in progress, nothing fired. */
  const Idle: Hold := Hold(None, false)

  /** The start of the current hold once this frame is counted: the recorded
      start if there is one, otherwise this frame's time. */
  function StartOf(h: Hold, now: int): int
  {
    h.startTime.ValueOr(now)
  }

  /** One frame of either gesture. Returns the new state and whether the
      gesture completed on this frame. */
  function Step(h: Hold, f: Observation, holdTime: int): (r: (Hold, bool))
    // It fires exactly when the hand is in view, the gesture is made, it has
    // been held long enough, and it has not fired since it was last reset.
    ensures r.1 <==> f.handPresent && f.heldNow && !h.triggered && f.now - StartOf(h, f.now) >= holdTime
    // A hold starts at the first frame the gesture is made and keeps that start.
    ensures f.handPresent && f.heldNow ==> r.0.startTime == Some(StartOf(h, f.now))
    // Firing latches; only a frame without a hand unlatches.
    ensures r.0.triggered <==> f.handPresent && (h.triggered || r.1)
    // With a positive hold time, the frame that starts a hold never fires.
    ensures holdTime > 0 && h.startTime.None? ==> !r.1
    // Letting go with the hand in view ends the hold but keeps the latch.
    ensures f.handPresent && !f.heldNow ==> r.0 == Hold(None, h.triggered)
    // Losing the hand resets everything.
    ensures !f.handPresent ==> r.0 == Idle && !r.1
  {
    if f.handPresent then
      if f.heldNow then
        var start := StartOf(h, f.now);
        if f.now - start >= holdTime && !h.triggered then
          (Hold(Some(start), true), true)
        else
          (Hold(Some(start), h.triggered), false)
      else
        (Hold(None, h.triggered), false)
    else
      (Idle, false)
  }

  /** `process_frame`: steps the pinch state; the open-pinch state is untouched. */
  function ProcessFrame(d: Detector, f: Observation, holdTime: int): (r: (Detector, bool))
    ensures r.0.openPinch == d.openPinch
    ensures (r.0.pinch, r.1) == Step(d.pinch, f, holdTime)
  {
    var (p, fired) := Step(d.pinch, f, holdTime);
    (d.(pinch := p), fired)
  }

  /** `process_frame_open_pinch`: steps the open-pinch state; the pinch state
      is untouched. */
  function ProcessFrameOpenPinch(d: Detector, f: Observation, holdTime: int): (r: (Detector, bool))
    ensures r.0.pinch == d.pinch
    ensures (r.0.openPinch, r.1) == Step(d.openPinch, f, holdTime)
  {
    var (p, fired) := Step(d.openPinch, f, holdTime);
    (d.(openPinch := p), fired)
  }

  /** `reset_gesture`: clears the pinch pair and nothing else. */
  function ResetGesture(d: Detector): (r: Detector)
    ensures r.pinch.startTime.None? && !r.pinch.triggered
    ensures r.openPinch == d.openPinch
  {
    d.(pinch := Idle)
  }

  /** `reset_open_pinch`: clears the open-pinch pair and nothing else. */
  function ResetOpenPinch(d: Detector): (r: Detector)
    ensures r.openPinch.startTime.None? && !r.openPinch.triggered
    ensures r.pinch == d.pinch
  {
    d.(openPinch := Idle)
  }

  /** Runs one gesture over a sequence of frames; returns the final state and
      how many times it fired. */
  function Run(h: Hold, fs: seq<Observation>, holdTime: int): (Hold, nat)
    decreases |fs|
  {
    if |fs| == 0 then (h, 0)
    else
      var (h', fired) := Step(h, fs[0], holdTime);
      var (last, n) := Run(h', fs[1..], holdTime);
      (last, n + (if fired then 1 else 0))
  }

  /** The number of frames in which no hand was seen. */
  function HandlessFrames(fs: seq<Observation>): nat
  {
    if |fs| == 0 then 0 else (if fs[0].handPresent then 0 else 1) + HandlessFrames(fs[1..])
  }

  /** A gesture fires at most once per appearance of the hand: the firings
      are bounded by the times the hand left view, plus one if the latch was
      open to begin with. */
  lemma {:induction false} FiringsBounded(h: Hold, fs: seq<Observation>, holdTime: int)
    ensures Run(h, fs, holdTime).1 <= (if h.triggered then 0 else 1) + HandlessFrames(fs)
    decreases |fs|
  {
    if |fs| > 0 {
      var (h', fired) := Step(h, fs[0], holdTime);
      FiringsBounded(h', fs[1..], holdTime);
    }
  }

  /** While the hand stays in view the gesture fires at most once, however
      often it is released and made again, and not at all once it has fired. */
  lemma AtMostOnceWhileHandInView(h: Hold, fs: seq<Observation>, holdTime: int)
    requires forall i :: 0 <= i < |fs| ==> fs[i].handPresent
    ensures Run(h, fs, holdTime).1 <= 1
    ensures h.triggered ==> Run(h, fs, holdTime).1 == 0
  {
    HandlessFramesZero(fs);
    FiringsBounded(h, fs, holdTime);
  }

  /** No frame lacks a hand, so none is counted. */
  lemma {:induction false} HandlessFramesZero(fs: seq<Observation>)
    requires forall i :: 0 <= i < |fs| ==> fs[i].handPresent
    ensures HandlessFrames(fs) == 0
  {
    if |fs| > 0 {
      HandlessFramesZero(fs[1..]);
    }
  }

  /** Some frame of `fs` comes at least `holdTime` after `start`. */
  predicate HeldLongEnough(fs: seq<Observation>, start: int, holdTime: int)
  {
    exists i :: 0 <= i < |fs| && fs[i].now - start >= holdTime
  }

  /** During an unbroken hold that began at `start` and has not fired, the
      gesture fires exactly once if some frame comes `holdTime` after the
      start, and never otherwise. */
  lemma {:induction false} UnbrokenHold(start: int, fs: seq<Observation>, holdTime: int)
    requires forall i :: 0 <= i < |fs| ==> fs[i].handPresent && fs[i].heldNow
    ensures Run(Hold(Some(start), false), fs, holdTime).1 == (if HeldLongEnough(fs, start, holdTime) then 1 else 0)
  {
    if |fs| > 0 {
      var h := Hold(Some(start), false);
      var (h', fired) := Step(h, fs[0], holdTime);
      if fired {
        AtMostOnceWhileHandInView(h', fs[1..], holdTime);
        assert HeldLongEnough(fs, start, holdTime) by {
          assert fs[0].now - start >= holdTime;
        }
      } else {
        UnbrokenHold(start, fs[1..], holdTime);
        assert HeldLongEnough(fs, start, holdTime) <==> HeldLongEnough(fs[1..], start, holdTime) by {
          if HeldLongEnough(fs, start, holdTime) {
            var i :| 0 <= i < |fs| && fs[i].now - start >= holdTime;
            assert i != 0;
            assert fs[1..][i - 1] == fs[i];
          }
          if HeldLongEnough(fs[1..], start, holdTime) {
            var i :| 0 <= i < |fs[1..]| && fs[1..][i].now - start >= holdTime;
            assert fs[i + 1] == fs[1..][i];
          }
        }
      }
    }
  }

  /** From a fresh or reset state, holding the gesture with the hand in view
      fires exactly once if the hold lasts `holdTime` from its first frame,
      and never otherwise. */
  lemma HoldFromIdle(fs: seq<Observation>, holdTime: int)
    requires |fs| > 0
    requires forall i :: 0 <= i < |fs| ==> fs[i].handPresent && fs[i].heldNow
    ensures Run(Idle, fs, holdTime).1 == (if HeldLongEnough(fs, fs[0].now, holdTime) then 1 else 0)
  {
    var start := fs[0].now;
    assert Step(Idle, fs[0], holdTime) == Step(Hold(Some(start), false), fs[0], holdTime);
    UnbrokenHold(start, fs, holdTime);
  }

  /** At the configured hold time of 500 ms, a pinch held from 0 ms through
      499 ms does not fire, and one held through 500 ms fires once. */
  lemma ConfiguredHoldTime()
    ensures Run(Idle, [Observation(true, true, 0), Observation(true, true, 250), Observation(true, true, 499)], Config.GestureHoldTimeMs).1 == 0
    ensures Run(Idle, [Observation(true, true, 0), Observation(true, true, 250), Observation(true, true, 500)], Config.GestureHoldTimeMs).1 == 1
  {
    var short := [Observation(true, true, 0), Observation(true, true, 250), Observation(true, true, 499)];
    var long := [Observation(true, true, 0), Observation(true, true, 250), Observation(true, true, 500)];
    HoldFromIdle(short, Config.GestureHoldTimeMs);
    HoldFromIdle(long, Config.GestureHoldTimeMs);
    assert long[2].now - long[0].now >= Config.GestureHoldTimeMs;
  }
}

=== FILE: transport.dfy ===
/** A TCP connection seen from the reading side, after the peer has written
    everything it is going to write and closed. */
module Transport {
  import opened Basics

  /** `pending` is every byte still to be read, in order. `grants` says how
      many bytes the transport hands to each successive `recv` call: TCP may
      deliver fewer bytes than were asked for. A blocking `recv` on a stream
      with bytes pending returns at least one byte, so a grant of 0 is read as
      1; once the schedule runs out every call gets all it asks for. */
  datatype Conn = Conn(pending: seq<Byte>, grants: seq<nat>)

  /** True when the peer has closed and every byte has been read. */
  predicate Drained(c: Conn) { |c.pending| == 0 }

  /** `recv(n)`: returns the next at most `n` pending bytes. The result is
      empty only when `n` is 0 or the stream is drained, which is how the
      reader recognises end of stream. */
  function Recv(c: Conn, n: nat): (r: (seq<Byte>, Conn))
    ensures |r.0| <= n
    ensures r.0 + r.1.pending == c.pending
    ensures |r.0| == 0 <==> n == 0 || Drained(c)
  {
    var grant := if |c.grants| == 0 then n else Max(c.grants[0], 1);
    var k := Min(Min(n, grant), |c.pending|);
    (c.pending[..k], Conn(c.pending[k..], if |c.grants| == 0 then [] else c.grants[1..]))
  }

  /** A read that returns every requested byte the peer sent: `min(n,
      pending)` of them. The metadata reads of the receiver are modelled this
      way; see README for the assumption this makes. */
  function ReadExact(c: Conn, n: nat): (r: (seq<Byte>, Conn))
    ensures |r.0| == Min(n, |c.pending|)
    ensures r.0 + r.1.pending == c.pending
    ensures r.1.grants == c.grants
  {
    var k := Min(n, |c.pending|);
    (c.pending[..k], Conn(c.pending[k..], c.grants))
  }
}
